=== FILE: README.md ===
# Talking-photo video pipeline, modelled in Dafny

The system turns a portrait photo and a short text into a talking-head video
clip through a remote video-generation service. It comes in two drafts, and
this project models the core of both.

**The chat bot (`bot_0.py`).** Each user's context moves through three steps:
`/start` asks for a photo; the photo is stored with its MIME type; the text
then runs the whole pipeline. The pipeline steps are:

- pick a Russian text-to-speech voice;
- upload the photo as a talking-photo asset;
- create the video job with the script cut to 2000 characters;
- poll the job's status on a fixed backoff schedule;
- stream the clip, transcode it and send it.

The context is cleared only after a clip is delivered.

**The synchronous processor class (`HeygenProcessor.py`).** It makes the same
remote calls, with these differences:

- it checks errors by hand on upload;
- it reads fields nested under `data`;
- the script is cut to 1000 characters;
- the status is compared exactly;
- the polling schedule is longer (nine steps);
- a guessed MIME type is coerced to JPEG or PNG.

**How the model represents it.**

- Every answer from the remote service is an input value: a `Reply` with a
  status code, a content type, the raw text and the decoded JSON body.
- Every call is a pure function from that answer to a `Result`.
- Each Python exception the code would raise is named by an `Error`:
  `AttributeError`, `TypeError`, `KeyError`, or the drafts' own
  `RuntimeError`/`HeygenError`.
- Polling is one recursive function over the schedule. The k-th status query's
  answer is given as a function of k.
- The bot's per-user contexts are a map from user id to a `Session`.

Modules:

- `Text`: Python's `strip`, `lower`, `in`, `startswith`/`endswith`, and slicing to a prefix.
- `Runtime`: JSON values, truthiness, `or`, `dict.get`, `d[key]`, iteration, and `raise_for_status` plus `json()`.
- `Polling`: the bounded polling loop and the two schedules.
- `Service`: the accepted image types and the video request body.
- `Voices`: `pick_ru_voice`.
- `BotApi`: `bot_0.py`'s remote calls and its choice of MIME type.
- `ProcessorApi`: `HeygenProcessor`.
- `Conversation`: `bot_0.py`'s handlers and the stage machine they share.
- `Drafts`: where the two drafts behave differently, each shown on a concrete answer, plus end-to-end scenarios.

The two drafts make the same calls but read the answers differently. The model
keeps each draft's own reading:

- `bot_0.py` reads the asset id, job id, status and URL at the top level of
  each answer only. `HeygenProcessor.py` reads the asset id nested under
  `data` first and the status and URL only under `data`
  (`Drafts.UploadShapesDiffer`, `Drafts.StatusShapesDiffer`).
- On a `completed` status without a URL:
  - `bot_0.py` reads the URL as `None` and keeps polling;
  - `HeygenProcessor` raises `KeyError` (`Drafts.CompletedWithoutUrl`).
- `HeygenProcessor` also raises `TypeError` for a list or object status.
- `HeygenProcessor` coerces an unsupported guessed MIME type to JPEG.
  `bot_0.py` forwards a document's own declared type unchanged
  (`Drafts.MimeChoicesDiffer`).
- A truthy URL that is not a string cannot be streamed: httpx refuses to build
  the request with a `TypeError`. In `bot_0.py` that happens outside any `try`,
  so the handler crashes and the context is kept.
- Neither draft deletes the uploaded asset remotely, so the model has no such
  step.

## Model

| member | source | states |
|---|---|---|
| Text.Strip | bot_0.py:199 | the stripped text is empty exactly when the message is all whitespace; otherwise it starts and ends with non-whitespace, and the message is that text with only whitespace before and after it |
| Text.Lower | bot_0.py:78 | lower-casing keeps the length and maps each character on its own: ASCII capitals to small letters, everything else unchanged |
| Text.ContainsIff | bot_0.py:66 | the left-to-right scan for `"ru" in ...` agrees, both ways, with "some window of the text equals the pattern" |
| Text.Truncate | bot_0.py:117 | `text[:limit]` is a prefix of the text of length min(len, limit), the whole text when it fits, and contains every shorter-than-limit prefix |
| Runtime.CheckedBody | bot_0.py:63-65 | `raise_for_status()` then `json()` succeeds exactly for a 2xx answer with a JSON body, and yields that body |
| Runtime.GetOr | bot_0.py:74 | `d.get(key, default)` works only on a dict and gives the stored value or the default |
| Runtime.Index | HeygenProcessor.py:118 | `d[key]` succeeds exactly when `d` is a dict holding the key; otherwise KeyError for a dict, TypeError for anything else |
| Runtime.Elements | bot_0.py:70-71 | a `for` loop whose body calls `.get` gets through exactly a list, or an empty dict or string; the elements are empty exactly when the value is falsy; a list yields exactly its items |
| Runtime.LowerText | bot_0.py:141 | `(x or "").lower()` succeeds exactly on a string or a falsy value, lower-casing the string and giving "" for the falsy value |
| Polling.PollFrom | bot_0.py:224-234 | from any point of the loop: a URL is returned only after pending queries and from a query that produced it; a stop comes from a query that raised; a timeout comes only after every remaining query was pending |
| Polling.Poll | HeygenProcessor.py:149-156 | at most one query per schedule entry; a timeout exactly when every scheduled query was pending; a result URL is truthy and comes from the last query made |
| Polling.PollFindsFirstUrl | bot_0.py:225-232 | pending answers followed by a URL give exactly that URL after one query more, or a timeout when the schedule is shorter |
| Polling.PollStopsAtFirstError | bot_0.py:227-230 | pending answers followed by a raising query stop polling on that error after one query more, whatever later answers would be, or time out when the schedule is shorter |
| Polling.WaitBounded | bot_0.py:225-226 | the seconds slept never exceed the sum of the schedule, whatever the status answers |
| Polling.ScheduleTotals | HeygenProcessor.py:147 | the bot's schedule has six steps totalling 84 seconds; the processor's has nine totalling 155 |
| Polling.PollUsesOnlyAskedQueries | HeygenProcessor.py:150-154 | the outcome depends only on the answers to the queries actually made |
| Service.Request | HeygenProcessor.py:83-107 | the request carries the given asset and voice, a 720×720 frame and a script that is the left-anchored cut of the text |
| Service.Fetched | bot_0.py:240-241 | streaming the clip succeeds exactly on a 2xx answer |
| Voices.RuLocaleOf | bot_0.py:66 | a locale item is readable exactly when it is a dict whose `locale` is a string or falsy; it contributes its `locale` string exactly when that string, lower-cased, contains "ru" |
| Voices.RuLocales | bot_0.py:62-66 | the Russian-locale set is built exactly when every item can be read, and then holds exactly the strings some locale item contributes |
| Voices.RussianLocaleSet | bot_0.py:66 | a string is a Russian locale exactly when some locale item is a dict whose `locale` is that string and contains "ru" once lower-cased |
| Voices.LocaleValues | bot_0.py:74 | the locale values are read exactly when every entry is a dict with a hashable `locale`; then there is one value per entry, each the entry's `locale` |
| Voices.FirstRussian | bot_0.py:71-80 | the loop finds nothing exactly when no voice speaks Russian; a found id belongs to the first Russian voice |
| Voices.PickRuVoice | bot_0.py:58-61 | a configured default wins without any request; otherwise a voice is picked only after both lists were fetched successfully |
| Voices.PickFirstRussian | bot_0.py:71-80 | with no default, the `voice_id` of the first Russian voice in list order is picked |
| Voices.FirstRussianFinds | bot_0.py:71-80 | the first Russian voice's id is returned whatever voices follow it |
| Voices.PickFallback | bot_0.py:81-84 | with no Russian voice, the first voice's `voice_id` is picked, or `None` for an empty list |
| Voices.SpeaksRussian | bot_0.py:72-80 | a non-dict voice faults; a Russian verdict without locale support needs a string language that is "ru" or contains "russian" once lower-cased; a non-Russian verdict means the language is falsy or a string that is neither |
| Voices.SpeaksRussianIff | bot_0.py:72-80 | on any voice dict, whatever other keys such as `voice_id` it has and whichever of `support_locale`, `locales` and `language` it lacks, provided its `language` is a string or falsy and, when it claims locale support, its locale list (an empty list when missing) has readable entries: it counts as Russian exactly when it claims support and some entry's `locale` is a Russian locale string, or its lower-cased language is "ru" or contains "russian" |
| Voices.RecordsMeetRu | bot_0.py:74-75 | a locale list of readable entries yields its locale values, and they meet the Russian locales exactly when some entry's `locale` is a string among them |
| BotApi.UploadTalkingPhoto | bot_0.py:87-96 | the upload yields an id exactly when the 2xx JSON answer is a dict with a truthy `talking_photo_id` or `id`; the id is the first of these and never empty |
| BotApi.CreateRequest | bot_0.py:99-124 | the script sent is its first 2000 characters, and the asset and voice are passed through |
| BotApi.CreateVideo | bot_0.py:125-133 | a status of 400 or more fails with the code and raw body; a job id comes back exactly when an answer below 400 is a JSON dict with a truthy `video_id` or `id`, and is the first of these |
| BotApi.VideoUrl | bot_0.py:136-146 | a failed `raise_for_status`/`json()` is the query's error; a non-dict answer or a truthy non-string status is a TypeError; a URL comes only from a status that lower-cases to "completed"; a render failure only from "failed" or "error" and carries the answer |
| BotApi.PhotoMime | bot_0.py:181-186 | a document's own declared type is kept; otherwise PNG exactly for a path ending in ".png", else JPEG |
| ProcessorApi.GuessMime | HeygenProcessor.py:32-37 | the result is always JPEG or PNG; an accepted guess is kept, anything else becomes JPEG |
| ProcessorApi.UploadMessage | HeygenProcessor.py:50-58 | the error message is the body's truthy `message`, else its truthy `error`, else the raw text |
| ProcessorApi.NestedPhotoId | HeygenProcessor.py:65-69 | the nested candidate is `data.talking_photo_id`, and it faults exactly when `data` is truthy but not a dict |
| ProcessorApi.UploadTalkingPhoto | HeygenProcessor.py:50-73 | status 400 or more fails with the code and message; a non-JSON content type yields no id; an id comes back exactly when a JSON dict answer below 400 has a dict or falsy `data` and a truthy nested or top-level `talking_photo_id`, and it is the nested one when that is truthy |
| ProcessorApi.CreateRequest | HeygenProcessor.py:83-107 | the script sent is its first 1000 characters, and the asset and voice are passed through |
| ProcessorApi.CreateVideo | HeygenProcessor.py:114-121 | status 400 or more fails with the code and raw body; a job id comes back exactly when an answer below 400 holds a dict `data` with a truthy `video_id`, and is that id |
| ProcessorApi.VideoUrl | HeygenProcessor.py:123-140 | a failed `raise_for_status`/`json()` is the query's error; an answer without a dict `data` holding `status` raises KeyError or TypeError; a URL comes only from `data.status` exactly "completed" and is its `data.video_url`; a render failure only from "failed" or "error"; a status query never reports a timeout |
| ProcessorApi.WaitAndDownload | HeygenProcessor.py:142-163 | it times out exactly when every scheduled query was pending; a raising query is the step's error; a clip is streamed exactly from a ready string URL, a non-string URL is a TypeError; success exactly when a string URL came back and the stream answered 2xx |
| Conversation.OnStart | bot_0.py:149-151 | `/start` puts the user in the photo-awaiting stage with no photo and leaves every other user alone |
| Conversation.OnPhoto | bot_0.py:158-190 | a photo is accepted exactly when the stage is absent or awaits a photo, the message has a photo or document, and the file path and bytes were fetched; it is stored with its chosen MIME type and text is awaited; otherwise the context is unchanged; other users are untouched |
| Conversation.Generate | bot_0.py:203-254 | steps run only after the one before succeeded; at most six status queries; the script sent is the 2000-character cut; the video request carries the uploaded asset id and the picked voice; the clip is fetched from the URL the polling returned, after the queries it made; a streamed URL is a truthy string; "too slow" means all six queries were pending |
| Conversation.GenerateOutcome | bot_0.py:203-254 | each failing step gives its own reply (an unsent progress reply or a voice-list error crashes before any upload, no voice, upload refused, creation error); once polling runs, "too slow" exactly when all six queries were pending and a status error exactly when a query raised; a clip is delivered exactly when every step succeeds and the URL is a string |
| Conversation.OnText | bot_0.py:194-257 | text is ignored exactly outside the text stage; a whitespace-only text is refused; only a delivered clip clears the context; the uploaded photo is the stored one |
| Conversation.StepKeepsConsistent | bot_0.py:149-257 | every handler keeps each context holding a photo exactly while it awaits text |
| Conversation.ReplayKeepsConsistent | bot_0.py:27 | any sequence of updates keeps every context in `USER_CTX` consistent |
| Drafts.UploadShapesDiffer | HeygenProcessor.py:65-71 | an id nested under `data` is accepted by the processor and refused by the bot |
| Drafts.StatusShapesDiffer | bot_0.py:140-143 | on the nested status shape with any URL, the processor returns that URL and the bot keeps waiting |
| Drafts.StatusCaseDiffers | HeygenProcessor.py:134-135 | a status that lower-cases to "completed" without being "completed" finishes the job for the bot and leaves it pending for the processor |
| Drafts.BotReadsStatus | bot_0.py:140-146 | on any top-level answer with a string status, the bot returns `video_url` for a status that lower-cases to "completed", raises with the answer for "failed" or "error", and otherwise reports not ready |
| Drafts.BotReadsFinished | bot_0.py:141-143 | any top-level status that lower-cases to "completed" yields the answer's `video_url`, `None` when missing |
| Drafts.BotPendsWithoutStatus | bot_0.py:141 | any dict answer with a missing or falsy top-level status is not ready yet |
| Drafts.ProcessorReadsStatus | HeygenProcessor.py:132-140 | on any dict answer whose `data` is a dict holding a status, whatever other top-level keys it has: `data["video_url"]` for exactly "completed", a fault for a list or object status, a render failure carrying the whole answer for exactly "failed" or "error", otherwise not ready |
| Drafts.CompletedWithoutUrl | HeygenProcessor.py:136 | "completed" without a URL keeps the bot polling and makes the processor raise KeyError |
| Drafts.ScriptLimitsDiffer | HeygenProcessor.py:99 | a 1500-character script reaches the service whole from the bot and cut to 1000 from the processor |
| Drafts.MimeChoicesDiffer | HeygenProcessor.py:32-37 | a GIF document stays GIF in the bot and becomes JPEG in the processor |
| Drafts.ThirdQueryReady | bot_0.py:225-232 | two pending answers and then a URL give that URL after exactly three queries |
| Drafts.AllPendingTimesOut | bot_0.py:233-234 | only pending answers time out after exactly one query per schedule entry |
| Drafts.ExamplePoll | bot_0.py:224-234 | "processing" answers followed by "completed" give the clip URL after one query more than the pending ones, or a timeout once they outnumber the schedule |
| Drafts.CompletedReports | bot_0.py:141-143 | a top-level status that lower-cases to "completed" reports the answer's URL |
| Drafts.ExampleDelivered | bot_0.py:194-257 | a user with a stored photo whose clip is reported within six queries gets it delivered, the whole stripped text is sent, and the context is cleared |
| Drafts.ExampleTooSlow | bot_0.py:233-234 | a clip never reported within six queries leaves the user still awaiting text |

## Left out

- HTTP transport, timeouts and redirects are left out. Each call's answer is an input `Reply`, and `NoResponse` stands for any transport failure.
- `asyncio.sleep`/`time.sleep` are left out. Delays are integers; only query counts and the sum of delays are modelled.
- The ffmpeg invocation (bot_0.py:35-55) is an external subprocess. Only its exit status is modelled, as `World.transcoded`.
- `mimetypes.guess_type` and JSON decoding are library calls. Their results are inputs: `GuessMime`'s guess, and `Reply.body`.
- Telegram message sending and the file download inside `on_photo` are I/O. Only whether the clip was sent (`World.sent`) and the downloaded bytes (`PhotoMessage.content`) are modelled.
- Reply texts other than the progress reply (`World.progressSent`, bot_0.py:203) are left out, and so is their failure. Each of them is sent after the handler last writes the context, so a failed reply only turns the outcome into an escaping exception and changes no context.
- bot_2.py, heygen_api.py, simple_bot.py and VideoProcessor.py are not part of this model. They are I/O wrappers, a hello-world bot and a transcoding wrapper.
- Remote asset deletion and temporary-directory cleanup are left out. No modelled file deletes the asset, and cleanup is local file I/O.
- The `title`/`callback_id` fields (random UUIDs) and the fixed style fields are not in `VideoRequest`. They are constants or randomness the pipeline does not inspect.
- JSON floating-point numbers are left out: numbers are integers. The fractional request settings are kept in tenths.
- Text.Lower: lower-cases ASCII letters only, for the reason given for `Runtime.LowerText` on the next line.
- Runtime.LowerText: lower-cases ASCII letters only. Python also lower-cases non-ASCII letters. Only U+212A and U+0130 lower to ASCII letters, so the verdicts on "completed", "failed", "error", "ru" and "russian" change only for text containing those two characters.
- ProcessorApi.CreateRequest: takes the script as a string. The source also admits `text=None`, which makes `text[:1000]` raise TypeError.
- Debug `print` calls in HeygenProcessor.py are left out. They have no effect on results.
- The extra `r.json()` at HeygenProcessor.py:75 is left out. It re-decodes a body that already decoded successfully.
- Concurrency is left out. aiogram runs handlers as tasks that interleave at every `await`: a second text sent while a clip is polled starts a second pipeline on the same context, and a photo arriving meanwhile can replace the stored photo. The model runs each update to completion before the next (`Conversation.Replay`).

=== FILE: bot_api.dfy ===
/** The remote calls of bot_0.py and the choice of the photo's MIME type, each
    as a function of the answer the service gave. Every answer goes through
    `raise_for_status()` except the video-creation answer, which is checked by
    hand against status 400. Fields are read at the top level of each answer. */
module BotApi {
  import opened Text
  import opened Runtime
  import opened Service

  /** The longest script the bot sends. */
  const ScriptLimit: nat := 2000

  /** `upload_talking_photo`: the asset id is `talking_photo_id` when truthy,
      else `id`; an answer with neither raises, so an id returned is never
      empty. */
  function UploadTalkingPhoto(reply: Reply): (r: Result<Json>)
    ensures var b := CheckedBody(reply);
      r.Ok? <==> b.Ok? && b.value.JObj?
                 && (Truthy(Field(b.value, "talking_photo_id")) || Truthy(Field(b.value, "id")))
    ensures r.Ok? ==> Truthy(r.value) && r.value != JStr([])
    ensures r.Ok? ==> var data := CheckedBody(reply).value;
      r.value == if Truthy(Field(data, "talking_photo_id")) then Field(data, "talking_photo_id") else Field(data, "id")
  {
    var data :- CheckedBody(reply);
    var byName :- Get(data, "talking_photo_id");
    var id := Or(Or(byName, Field(data, "id")), JStr([]));
    if !Truthy(id) then Err(NoTalkingPhotoId) else Ok(id)
  }

  /** The request `create_video` sends: the script is cut to its first 2000
      characters; speed 1.3, scale 1.1. */
  function CreateRequest(talkingPhotoId: Json, script: string, voiceId: Json): (r: VideoRequest)
    ensures IsPrefix(r.inputText, script)
    ensures |r.inputText| == if |script| <= ScriptLimit then |script| else ScriptLimit
    ensures |script| <= ScriptLimit ==> r.inputText == script
    ensures r.talkingPhotoId == talkingPhotoId && r.voiceId == voiceId
  {
    Request(talkingPhotoId, voiceId, script, ScriptLimit, 11, 13)
  }

  /** `create_video` on the service's answer: a status of 400 or more raises
      with the raw body; otherwise the job id is `video_id` when truthy, else
      `id`, and an answer with neither raises. */
  function CreateVideo(reply: Reply): (r: Result<Json>)
    ensures reply.Response? && reply.code >= 400 ==> r == Err(GenerateFailed(reply.code, reply.text))
    ensures r.Ok? <==> reply.Response? && reply.code < 400 && reply.body.Some? && reply.body.value.JObj?
                       && (Truthy(Field(reply.body.value, "video_id")) || Truthy(Field(reply.body.value, "id")))
    ensures r.Ok? ==> Truthy(r.value)
    ensures r.Ok? ==> var data := reply.body.value;
      r.value == if Truthy(Field(data, "video_id")) then Field(data, "video_id") else Field(data, "id")
  {
    match reply
    case NoResponse => Err(Transport)
    case Response(code, _, text, _) =>
      if code >= 400 then Err(GenerateFailed(code, text))
      else
        var data :- Decoded(reply);
        var byName :- Get(data, "video_id");
        var id := Or(byName, Field(data, "id"));
        if !Truthy(id) then Err(NoVideoId) else Ok(id)
  }

  /** `get_video_url`: the job's `status`, lower-cased, decides. "completed"
      gives the answer's `video_url` (possibly `None`), "failed" and "error"
      raise, and any other status, or none, means not ready yet. */
  function VideoUrl(reply: Reply): (r: Result<Json>)
    ensures r.Ok? ==> CheckedBody(reply).Ok? && CheckedBody(reply).value.JObj?
    ensures r.Ok? && Truthy(r.value) ==> var data := CheckedBody(reply).value;
      Field(data, "status").JStr? && Lower(Field(data, "status").s) == "completed"
      && r.value == Field(data, "video_url")
    ensures r.Err? && r.error.RenderFailed? ==>
      && CheckedBody(reply).Ok?
      && var data := CheckedBody(reply).value;
         r.error.answer == data && Field(data, "status").JStr? && Lower(Field(data, "status").s) in {"failed", "error"}
    ensures CheckedBody(reply).Err? ==> r == Err(CheckedBody(reply).error)
    ensures CheckedBody(reply).Ok? ==> var data := CheckedBody(reply).value;
      !data.JObj? || (Truthy(Field(data, "status")) && !Field(data, "status").JStr?) ==> r == Err(TypeFault)
  {
    var data :- CheckedBody(reply);
    var status :- Get(data, "status");
    var word :- LowerText(status);
    if word == "completed" then Ok(Field(data, "video_url"))
    else if word == "failed" || word == "error" then Err(RenderFailed(data))
    else Ok(JNull)
  }

  /** The MIME type `on_photo` records: a document's own non-empty type is
      taken as is, otherwise a file path ending in ".png" means PNG, and
      anything else JPEG. Absent values are "". */
  function PhotoMime(isDocument: bool, documentMime: string, filePath: string): (r: string)
    ensures r != []
    ensures isDocument && documentMime != [] ==> r == documentMime
    ensures !(isDocument && documentMime != []) ==> r in AcceptedImageTypes
    ensures !(isDocument && documentMime != []) ==> (r == Png <==> IsSuffix(".png", filePath))
  {
    if isDocument && documentMime != [] then documentMime
    else if IsSuffix(".png", filePath) then Png
    else Jpeg
  }
}

=== FILE: conversation.dfy ===
/** The chat front end of bot_0.py: a per-user context that moves from waiting
    for a photo to waiting for text and is cleared after a clip is delivered,
    and the text handler that runs the whole pipeline (voice, upload, video
    creation, polling, download, transcoding, sending) on the answers the
    outside world gives. */
module Conversation {
  import opened Text
  import opened Runtime
  import opened Service
  import opened Polling
  import opened Voices
  import opened BotApi

  newtype byte = x: int | 0 <= x < 256

  datatype Stage = AwaitPhoto | AwaitText

  /** A photo kept between the two messages: its bytes and MIME type. */
  datatype Photo = Photo(content: seq<byte>, mime: string)

  /** One user's context dict: the `stage` key and the photo keys, each absent
      or present. */
  datatype Session = Session(stage: Option<Stage>, photo: Option<Photo>)

  /** The empty dict a new or cleared context is. */
  const Fresh: Session := Session(None, None)

  type UserId = int

  type Sessions = map<UserId, Session>

  /** `USER_CTX.setdefault(user, {})`. */
  function Context(sessions: Sessions, user: UserId): Session {
    if user in sessions then sessions[user] else Fresh
  }

  /** `USER_CTX[user] = s`: only that user's context changes. */
  function SetContext(sessions: Sessions, user: UserId, s: Session): (r: Sessions)
    ensures r.Keys == sessions.Keys + {user}
    ensures r[user] == s
    ensures forall u | u in sessions && u != user :: r[u] == sessions[u]
  {
    sessions[user := s]
  }

  /** A context holds a photo exactly while it waits for text. */
  predicate Consistent(s: Session) {
    s.photo.Some? <==> s.stage == Some(AwaitText)
  }

  ghost predicate AllConsistent(sessions: Sessions) {
    forall u | u in sessions :: Consistent(sessions[u])
  }

  /** `on_start`: the user's context becomes `{"stage": "await_photo"}`. */
  function OnStart(sessions: Sessions, user: UserId): (r: Sessions)
    ensures r.Keys == sessions.Keys + {user}
    ensures forall u | u in sessions && u != user :: r[u] == sessions[u]
    ensures r[user].stage == Some(AwaitPhoto) && r[user].photo.None?
  {
    SetContext(sessions, user, Session(Some(AwaitPhoto), None))
  }

  /** A photo or document message and what fetching its file gave: the file
      path when `get_file` answered ("" for no path), and the file's bytes when
      the download succeeded. Absent MIME types are "". */
  datatype PhotoMessage = PhotoMessage(
    hasPhoto: bool,
    hasDocument: bool,
    documentMime: string,
    filePath: Option<string>,
    content: Option<seq<byte>>)

  datatype PhotoOutcome = PhotoIgnored | NoFile | PhotoCrashed | Accepted

  datatype PhotoStep = PhotoStep(sessions: Sessions, outcome: PhotoOutcome)

  /** `on_photo`: a photo is taken only before any stage or while a photo is
      awaited; it is stored with its MIME type and text is awaited next. */
  function OnPhoto(sessions: Sessions, user: UserId, m: PhotoMessage): (r: PhotoStep)
    ensures r.sessions.Keys == sessions.Keys + {user}
    ensures forall u | u in sessions && u != user :: r.sessions[u] == sessions[u]
    ensures r.outcome.Accepted? ==> Context(sessions, user).stage in {None, Some(AwaitPhoto)}
    ensures !(Context(sessions, user).stage in {None, Some(AwaitPhoto)}) ==> r.outcome.PhotoIgnored?
    ensures !r.outcome.Accepted? ==> r.sessions[user] == Context(sessions, user)
    ensures r.outcome.Accepted? <==>
      && Context(sessions, user).stage in {None, Some(AwaitPhoto)}
      && (m.hasPhoto || m.hasDocument)
      && m.filePath.Some? && m.content.Some?
    ensures r.outcome.Accepted? ==>
      && r.sessions[user].stage == Some(AwaitText)
      && m.content.Some? && m.filePath.Some?
      && r.sessions[user].photo == Some(Photo(m.content.value,
           PhotoMime(!m.hasPhoto && m.hasDocument, m.documentMime, m.filePath.value)))
  {
    var ctx := Context(sessions, user);
    var base := SetContext(sessions, user, ctx);
    if !(ctx.stage.None? || ctx.stage == Some(AwaitPhoto)) then PhotoStep(base, PhotoIgnored)
    else if !m.hasPhoto && !m.hasDocument then PhotoStep(base, NoFile)
    else
      match (m.filePath, m.content)
      case (Some(path), Some(bytes)) =>
        var mime := PhotoMime(!m.hasPhoto && m.hasDocument, m.documentMime, path);
        PhotoStep(SetContext(sessions, user, Session(Some(AwaitText), Some(Photo(bytes, mime)))), Accepted)
      case _ => PhotoStep(base, PhotoCrashed)
  }

  /** What the outside world answers during one run of the text handler:
      whether the "generating" progress reply went out, the
      configured default voice ("" when unset), the service's answers to the
      voice-list, upload, creation, k-th status and download requests, whether
      the transcoder exited with status 0, and whether sending the clip
      succeeded. */
  datatype World = World(
    progressSent: bool,
    defaultVoice: string,
    locales: Reply,
    voices: Reply,
    upload: Reply,
    generate: Reply,
    status: nat -> Reply,
    download: Reply,
    transcoded: bool,
    sent: bool)

  /** The reply the user gets; `Crashed` is an exception that escapes the
      handler, which the dispatcher logs. */
  datatype TextOutcome =
    | TextIgnored
    | EmptyText
    | NoVoice
    | UploadRejected
    | GenerationError(error: Error)
    | StatusError(error: Error)
    | TooSlow
    | TranscodeError
    | Delivered
    | Crashed

  /** The requests a run made: the photo uploaded, the creation request, the
      job whose status was polled and how many times, and the URL streamed. */
  datatype Trace = Trace(
    uploaded: Option<Photo>,
    request: Option<VideoRequest>,
    job: Option<Json>,
    statusQueries: nat,
    fetchedFrom: Option<Json>)

  const NoTrace: Trace := Trace(None, None, None, 0, None)

  datatype Run = Run(outcome: TextOutcome, trace: Trace)

  /** What each status query yields, given the service's answers to them. */
  function StatusQueries(status: nat -> Reply): nat -> Result<Json> {
    (k: nat) => BotApi.VideoUrl(status(k))
  }

  /** The voice `on_text` picks. */
  function Voice(w: World): Result<Json> {
    PickRuVoice(w.defaultVoice, w.locales, w.voices)
  }

  /** The run got as far as polling: a voice was found, the stored photo was
      uploaded and the video job was created. */
  predicate ReachesPolling(photo: Option<Photo>, w: World) {
    && w.progressSent
    && Voice(w).Ok? && Truthy(Voice(w).value)
    && photo.Some?
    && BotApi.UploadTalkingPhoto(w.upload).Ok?
    && BotApi.CreateVideo(w.generate).Ok?
  }

  /** The pipeline of `on_text` for a non-empty script: send the progress
      reply, pick a voice, upload
      the stored photo, create the video, poll the job on the six-step
      schedule, then download, transcode and send. Each step runs only when the
      one before it succeeded. Streaming from a URL that is not a string fails
      before any request is made, outside the handler's `try` blocks. */
  function Generate(photo: Option<Photo>, script: string, w: World): (r: Run)
    ensures !r.outcome.TextIgnored? && !r.outcome.EmptyText?
    ensures r.trace.statusQueries <= |BotSchedule|
    ensures r.trace.uploaded.Some? ==> r.trace.uploaded == photo
    ensures r.trace.request.Some? ==> r.trace.uploaded.Some?
    ensures r.trace.request.Some? ==>
      && IsPrefix(r.trace.request.value.inputText, script)
      && |r.trace.request.value.inputText| == if |script| <= ScriptLimit then |script| else ScriptLimit
    ensures r.trace.job.Some? ==> r.trace.request.Some? && Truthy(r.trace.job.value)
    ensures r.trace.statusQueries > 0 ==> r.trace.job.Some?
    ensures r.trace.fetchedFrom.Some? ==>
      Truthy(r.trace.fetchedFrom.value) && r.trace.fetchedFrom.value.JStr? && r.trace.statusQueries > 0
    ensures r.outcome.TooSlow? ==>
      r.trace.statusQueries == |BotSchedule| && PendingBetween(StatusQueries(w.status), 0, |BotSchedule|)
    ensures r.trace.request.Some? ==>
      && Voice(w).Ok?
      && BotApi.UploadTalkingPhoto(w.upload).Ok?
      && r.trace.request.value.talkingPhotoId == BotApi.UploadTalkingPhoto(w.upload).value
      && r.trace.request.value.voiceId == Voice(w).value
    ensures r.trace.fetchedFrom.Some? ==>
      Poll(BotSchedule, StatusQueries(w.status)) == Ready(r.trace.fetchedFrom.value, r.trace.statusQueries)
  {
    if !w.progressSent then Run(Crashed, NoTrace)
    else
      match Voice(w)
      case Err(_) => Run(Crashed, NoTrace)
      case Ok(voice) =>
        if !Truthy(voice) then Run(NoVoice, NoTrace)
        else
          match photo
          case None => Run(UploadRejected, NoTrace)
          case Some(p) =>
            match BotApi.UploadTalkingPhoto(w.upload)
            case Err(_) => Run(UploadRejected, Trace(Some(p), None, None, 0, None))
            case Ok(assetId) =>
              var request := CreateRequest(assetId, script, voice);
              match BotApi.CreateVideo(w.generate)
              case Err(e) => Run(GenerationError(e), Trace(Some(p), Some(request), None, 0, None))
              case Ok(job) =>
                var poll := Poll(BotSchedule, StatusQueries(w.status));
                match poll
                case Stopped(e, n) => Run(StatusError(e), Trace(Some(p), Some(request), Some(job), n, None))
                case TimedOut(n) => Run(TooSlow, Trace(Some(p), Some(request), Some(job), n, None))
                case Ready(url, n) =>
                  if !url.JStr? then Run(Crashed, Trace(Some(p), Some(request), Some(job), n, None))
                  else
                    var trace := Trace(Some(p), Some(request), Some(job), n, Some(url));
                    if Fetched(w.download).Err? then Run(Crashed, trace)
                    else if !w.transcoded then Run(TranscodeError, trace)
                    else if !w.sent then Run(Crashed, trace)
                    else Run(Delivered, trace)
  }

  /** Which outcome a run has, step by step: each failing step gives its own
      reply (a progress reply that cannot be sent ends the handler before any
      request), polling decides between a timeout, a status error and a URL, and a
      clip is delivered exactly when every step succeeds. */
  lemma GenerateOutcome(photo: Option<Photo>, script: string, w: World)
    ensures !w.progressSent ==> Generate(photo, script, w) == Run(Crashed, NoTrace)
    ensures w.progressSent && Voice(w).Err? ==> Generate(photo, script, w) == Run(Crashed, NoTrace)
    ensures w.progressSent && Voice(w).Ok? && !Truthy(Voice(w).value) ==> Generate(photo, script, w) == Run(NoVoice, NoTrace)
    ensures w.progressSent && Voice(w).Ok? && Truthy(Voice(w).value) && (photo.None? || BotApi.UploadTalkingPhoto(w.upload).Err?) ==>
      var r := Generate(photo, script, w);
      r.outcome == UploadRejected && r.trace.request.None?
    ensures w.progressSent && Voice(w).Ok? && Truthy(Voice(w).value) && photo.Some? && BotApi.UploadTalkingPhoto(w.upload).Ok?
            && BotApi.CreateVideo(w.generate).Err? ==>
      var r := Generate(photo, script, w);
      r.outcome == GenerationError(BotApi.CreateVideo(w.generate).error) && r.trace.job.None?
    ensures ReachesPolling(photo, w) ==>
      var r := Generate(photo, script, w);
      var poll := Poll(BotSchedule, StatusQueries(w.status));
      && r.trace.job == Some(BotApi.CreateVideo(w.generate).value)
      && r.trace.statusQueries == poll.queries
      && (r.outcome == TooSlow <==> PendingBetween(StatusQueries(w.status), 0, |BotSchedule|))
      && (r.outcome.StatusError? <==> poll.Stopped?)
      && (r.outcome.StatusError? ==> r.outcome.error == poll.error)
    ensures var r := Generate(photo, script, w);
      r.outcome.Delivered? <==>
      && ReachesPolling(photo, w)
      && var poll := Poll(BotSchedule, StatusQueries(w.status));
         poll.Ready? && poll.url.JStr? && Fetched(w.download).Ok? && w.transcoded && w.sent
  {
  }

  datatype TextStep = TextStep(sessions: Sessions, outcome: TextOutcome, trace: Trace)

  /** `on_text`: text is taken only while text is awaited; whitespace-only text
      is turned away; otherwise the stripped text drives the pipeline, and only
      a delivered clip clears the context. */
  function OnText(sessions: Sessions, user: UserId, text: string, w: World): (r: TextStep)
    ensures r.sessions.Keys == sessions.Keys + {user}
    ensures forall u | u in sessions && u != user :: r.sessions[u] == sessions[u]
    ensures r.outcome.TextIgnored? <==> Context(sessions, user).stage != Some(AwaitText)
    ensures r.outcome.EmptyText? <==> Context(sessions, user).stage == Some(AwaitText) && AllSpace(text)
    ensures r.sessions[user] == if r.outcome.Delivered? then Fresh else Context(sessions, user)
    ensures r.outcome.Delivered? ==> Context(sessions, user).stage == Some(AwaitText)
    ensures r.trace.statusQueries <= 6
    ensures r.trace.request.Some? ==>
      && IsPrefix(r.trace.request.value.inputText, Strip(text))
      && |r.trace.request.value.inputText| == if |Strip(text)| <= 2000 then |Strip(text)| else 2000
    ensures r.trace.uploaded.Some? ==> r.trace.uploaded == Context(sessions, user).photo
  {
    var ctx := Context(sessions, user);
    if ctx.stage != Some(AwaitText) then TextStep(SetContext(sessions, user, ctx), TextIgnored, NoTrace)
    else
      var script := Strip(text);
      if script == [] then TextStep(SetContext(sessions, user, ctx), EmptyText, NoTrace)
      else
        var run := Generate(ctx.photo, script, w);
        var after := if run.outcome.Delivered? then Fresh else ctx;
        TextStep(SetContext(sessions, user, after), run.outcome, run.trace)
  }

  /** One incoming update, as the dispatcher routes it. */
  datatype Event =
    | StartCommand(user: UserId)
    | PhotoSent(user: UserId, message: PhotoMessage)
    | TextSent(user: UserId, text: string, world: World)

  function Step(sessions: Sessions, e: Event): Sessions {
    match e
    case StartCommand(u) => OnStart(sessions, u)
    case PhotoSent(u, m) => OnPhoto(sessions, u, m).sessions
    case TextSent(u, t, w) => OnText(sessions, u, t, w).sessions
  }

  function Replay(sessions: Sessions, events: seq<Event>): Sessions
    decreases |events|
  {
    if events == [] then sessions else Replay(Step(sessions, events[0]), events[1..])
  }

  /** Every handler keeps each context consistent. */
  lemma StepKeepsConsistent(sessions: Sessions, e: Event)
    requires AllConsistent(sessions)
    ensures AllConsistent(Step(sessions, e))
  {
    var user := e.user;
    assert Consistent(Context(sessions, user));
  }

  /** From consistent contexts, any sequence of updates leaves every context
      consistent: whenever text is awaited the photo it needs is there. */
  lemma {:induction false} ReplayKeepsConsistent(sessions: Sessions, events: seq<Event>)
    requires AllConsistent(sessions)
    ensures AllConsistent(Replay(sessions, events))
    decreases |events|
  {
    if events != [] {
      StepKeepsConsistent(sessions, events[0]);
      ReplayKeepsConsistent(Step(sessions, events[0]), events[1..]);
    }
  }
}

=== FILE: drafts.dfy ===
/** Where the two drafts part ways, each shown on one concrete answer, and a
    few polling and end-to-end scenarios run through the models. */
module Drafts {
  import opened Text
  import opened Runtime
  import opened Service
  import opened Polling
  import BotApi
  import ProcessorApi
  import Voices
  import opened Conversation

  /** The status answer shape HeygenProcessor.py reads:
      `{"data": {"status": s, "video_url": u}}`. */
  function NestedStatus(status: string, url: Json): Reply {
    JsonReply(JObj(map["data" := JObj(map["status" := JStr(status), "video_url" := url])]))
  }

  /** The same fields at the top level, the shape bot_0.py reads. */
  function FlatStatus(status: string, url: Json): Reply {
    JsonReply(JObj(map["status" := JStr(status), "video_url" := url]))
  }

  /** An upload answer with the id nested under `data` is accepted by the
      processor and refused by the bot, which reads only the top level. */
  lemma UploadShapesDiffer()
    ensures ProcessorApi.UploadTalkingPhoto(JsonReply(JObj(map["data" := JObj(map["talking_photo_id" := JStr("tp_123")])])))
         == Ok(JStr("tp_123"))
    ensures BotApi.UploadTalkingPhoto(JsonReply(JObj(map["data" := JObj(map["talking_photo_id" := JStr("tp_123")])])))
         == Err(NoTalkingPhotoId)
  {
    var data := JObj(map["talking_photo_id" := JStr("tp_123")]);
    var js := JObj(map["data" := data]);
    assert IsPrefix("application/json", "application/json");
    assert Field(js, "data") == data;
    assert Field(data, "talking_photo_id") == JStr("tp_123");
    assert Field(js, "talking_photo_id") == JNull;
    assert Field(js, "id") == JNull;
  }

  /** On the processor's nested status shape the processor sees a finished job,
      while the bot finds no top-level status and keeps waiting. */
  lemma StatusShapesDiffer(url: Json)
    ensures ProcessorApi.VideoUrl(NestedStatus("completed", url)) == Ok(url)
    ensures BotApi.VideoUrl(NestedStatus("completed", url)) == Ok(JNull)
  {
    var answer := NestedStatus("completed", url).body.value;
    ProcessorReadsStatus(answer.fields, answer.fields["data"].fields, JStr("completed"));
    BotPendsWithoutStatus(answer.fields);
  }

  /** The bot lower-cases the status, the processor compares it exactly: a
      status such as "Completed" is finished for the one and pending for the
      other. */
  lemma StatusCaseDiffers(status: string, url: Json)
    requires Lower(status) == "completed" && status != "completed"
    ensures BotApi.VideoUrl(FlatStatus(status, url)) == Ok(url)
    ensures ProcessorApi.VideoUrl(NestedStatus(status, url)) == Ok(JNull)
  {
    BotReadsFinished(FlatStatus(status, url).body.value.fields, status);
    var answer := NestedStatus(status, url).body.value;
    ProcessorReadsStatus(answer.fields, answer.fields["data"].fields, JStr(status));
  }

  /** "Completed" is such a status, so `StatusCaseDiffers` applies to it. */
  lemma LowerCompleted()
    ensures Lower("Completed") == "completed" && "Completed" != "completed"
  {
    var l := Lower("Completed");
    assert LowerChar('C') == 'c';
    forall i | 1 <= i < 9 ensures l[i] == "completed"[i] {
      assert "Completed"[i] == "completed"[i];
    }
    assert "Completed"[0] != "completed"[0];
  }

  /** How the bot reads any top-level answer whose `status` is a string. */
  lemma BotReadsStatus(fields: map<string, Json>, status: string)
    requires "status" in fields && fields["status"] == JStr(status)
    ensures var word := Lower(status);
      BotApi.VideoUrl(JsonReply(JObj(fields)))
      == if word == "completed" then Ok(Field(JObj(fields), "video_url"))
         else if word == "failed" || word == "error" then Err(RenderFailed(JObj(fields)))
         else Ok(JNull)
  {
    assert Get(JObj(fields), "status") == Ok(JStr(status));
    assert LowerText(JStr(status)) == Ok(Lower(status));
  }

  /** A missing or falsy top-level status reads as "" for the bot: not ready
      yet, whatever else the answer holds. Every answer of the nested shape
      lands here. */
  lemma BotPendsWithoutStatus(fields: map<string, Json>)
    requires !Truthy(Field(JObj(fields), "status"))
    ensures BotApi.VideoUrl(JsonReply(JObj(fields))) == Ok(JNull)
  {
    assert Get(JObj(fields), "status") == Ok(Field(JObj(fields), "status"));
    assert LowerText(Field(JObj(fields), "status")) == Ok([]);
  }

  /** A top-level status that lower-cases to "completed" hands back the
      answer's `video_url`, `None` when it is missing. */
  lemma BotReadsFinished(fields: map<string, Json>, status: string)
    requires "status" in fields && fields["status"] == JStr(status)
    requires Lower(status) == "completed"
    ensures BotApi.VideoUrl(JsonReply(JObj(fields))) == Ok(Field(JObj(fields), "video_url"))
  {
    BotReadsStatus(fields, status);
  }

  /** How the processor reads any dict answer whose `data` is a dict holding
      a status, whatever other top-level keys it has: exactly "completed"
      gives `d["video_url"]`, a list or object status faults, exactly "failed"
      or "error" raises with the whole answer, and anything else is pending. */
  lemma ProcessorReadsStatus(fields: map<string, Json>, data: map<string, Json>, status: Json)
    requires "data" in fields && fields["data"] == JObj(data)
    requires "status" in data && data["status"] == status
    ensures ProcessorApi.VideoUrl(JsonReply(JObj(fields)))
      == if status == JStr("completed") then Index(JObj(data), "video_url")
         else if !Hashable(status) then Err(TypeFault)
         else if status == JStr("failed") || status == JStr("error") then Err(RenderFailed(JObj(fields)))
         else Ok(JNull)
  {
    var answer := JObj(fields);
    assert Or(answer, EmptyObject) == answer;
    assert Index(answer, "data") == Ok(JObj(data));
    assert Index(JObj(data), "status") == Ok(status);
  }

  /** A "completed" status without a URL: the bot reads `None` and keeps
      polling, the processor's `d["video_url"]` raises and polling stops. */
  lemma CompletedWithoutUrl(status: string)
    requires status == "completed"
    ensures Pending(BotApi.VideoUrl(JsonReply(JObj(map["status" := JStr(status)]))))
    ensures ProcessorApi.VideoUrl(JsonReply(JObj(map["data" := JObj(map["status" := JStr(status)])])))
         == Err(KeyFault("video_url"))
  {
    assert Lower(status) == "completed" by { LowerKeeps(status); }
    BotPendsWithoutUrl(status);
    ProcessorFaultsWithoutUrl(status);
  }

  lemma BotPendsWithoutUrl(status: string)
    requires Lower(status) == "completed"
    ensures Pending(BotApi.VideoUrl(JsonReply(JObj(map["status" := JStr(status)]))))
  {
    BotReadsFinished(map["status" := JStr(status)], status);
  }

  lemma ProcessorFaultsWithoutUrl(status: string)
    requires status == "completed"
    ensures ProcessorApi.VideoUrl(JsonReply(JObj(map["data" := JObj(map["status" := JStr(status)])])))
         == Err(KeyFault("video_url"))
  {
    var data := map["status" := JStr(status)];
    ProcessorReadsStatus(map["data" := JObj(data)], data, JStr(status));
  }

  /** A 1500-character script reaches the service whole from the bot and cut to
      1000 characters from the processor. */
  lemma ScriptLimitsDiffer(script: string)
    requires |script| == 1500
    ensures BotApi.CreateRequest(JStr("tp"), script, JStr("v")).inputText == script
    ensures ProcessorApi.CreateRequest(JStr("tp"), script, "v").inputText == script[..1000]
  {
  }

  /** A document declared as GIF is forwarded as GIF by the bot; the processor
      would have sent JPEG. */
  lemma MimeChoicesDiffer()
    ensures BotApi.PhotoMime(true, "image/gif", "photos/file_1.gif") == "image/gif"
    ensures ProcessorApi.GuessMime(Some("image/gif")) == Jpeg
    ensures "image/gif" !in AcceptedImageTypes
  {
  }

  /** The answers of a run of status queries given as a list; queries past its
      end are never made in the scenarios below. */
  function Answers(s: seq<Result<Json>>): nat -> Result<Json> {
    (k: nat) => if k < |s| then s[k] else Ok(JNull)
  }

  /** [processing, processing, completed] against a three-entry schedule: the
      URL comes back after exactly three queries. */
  lemma ThirdQueryReady(schedule: seq<nat>, url: Json)
    requires |schedule| == 3 && Truthy(url)
    ensures Poll(schedule, Answers([Ok(JNull), Ok(JNull), Ok(url)])) == Ready(url, 3)
  {
    var q := Answers([Ok(JNull), Ok(JNull), Ok(url)]);
    assert q(0) == Ok(JNull) && q(1) == Ok(JNull) && q(2) == Ok(url);
    assert schedule[1..][1..][1..] == [];
  }

  /** Only pending answers: the timeout comes after exactly one query per
      schedule entry. */
  lemma AllPendingTimesOut(schedule: seq<nat>, query: nat -> Result<Json>)
    requires forall k: nat :: Pending(query(k))
    ensures Poll(schedule, query) == TimedOut(|schedule|)
  {
  }

  /** A bot world where every step succeeds: a configured voice,
      asset "tp_123", job "job_456", and status answers that stay
      "processing" for `pendingQueries` queries and then report the clip. */
  function ExampleWorld(pendingQueries: nat): World {
    World(
      true, "voice_1", NoResponse, NoResponse,
      JsonReply(JObj(map["talking_photo_id" := JStr("tp_123")])),
      JsonReply(JObj(map["video_id" := JStr("job_456")])),
      (k: nat) => if k < pendingQueries then FlatStatus("processing", JNull)
                  else FlatStatus("completed", JStr("https://cdn/x.mp4")),
      Response(200, "video/mp4", [], None),
      true, true)
  }

  const Waiting: Session := Session(Some(AwaitText), Some(Photo([], Jpeg)))

  /** A user who sent a photo and now sends text: when the clip is reported
      within the six queries, it is delivered after one query more than the
      "processing" answers, the stripped text is sent whole, and the user's
      context is cleared. */
  lemma ExampleDelivered(text: string, pendingQueries: nat)
    requires Strip(text) != [] && |Strip(text)| <= BotApi.ScriptLimit
    requires pendingQueries < |BotSchedule|
    ensures var r := OnText(map[7 := Waiting], 7, text, ExampleWorld(pendingQueries));
      && r.outcome == Delivered
      && r.sessions[7] == Fresh
      && r.trace.statusQueries == pendingQueries + 1
      && r.trace.job == Some(JStr("job_456"))
      && r.trace.request.Some? && r.trace.request.value.inputText == Strip(text)
      && r.trace.fetchedFrom == Some(JStr("https://cdn/x.mp4"))
  {
    ExampleRun(Strip(text), pendingQueries);
    TextRunsPipeline(map[7 := Waiting], 7, text, ExampleWorld(pendingQueries));
  }

  /** Status answers that stay "processing" through all six queries: the bot
      gives up and the user is still asked for text. */
  lemma ExampleTooSlow(text: string, pendingQueries: nat)
    requires Strip(text) != []
    requires pendingQueries >= |BotSchedule|
    ensures var r := OnText(map[7 := Waiting], 7, text, ExampleWorld(pendingQueries));
      && r.outcome == TooSlow
      && r.sessions[7] == Waiting
      && r.trace.statusQueries == |BotSchedule|
  {
    ExampleRun(Strip(text), pendingQueries);
    TextRunsPipeline(map[7 := Waiting], 7, text, ExampleWorld(pendingQueries));
  }

  /** Text received while text is awaited runs the pipeline on the stripped
      text and the stored photo. */
  lemma TextRunsPipeline(sessions: Sessions, user: UserId, text: string, w: World)
    requires Context(sessions, user).stage == Some(AwaitText) && Strip(text) != []
    ensures var ctx := Context(sessions, user);
      var run := Generate(ctx.photo, Strip(text), w);
      var r := OnText(sessions, user, text, w);
      && r.outcome == run.outcome && r.trace == run.trace
      && r.sessions[user] == if run.outcome.Delivered? then Fresh else ctx
  {
  }

  /** The pipeline in the example world: it delivers when the clip comes within
      the six queries and times out otherwise. */
  lemma ExampleRun(script: string, pendingQueries: nat)
    ensures var r := Generate(Some(Photo([], Jpeg)), script, ExampleWorld(pendingQueries));
      && r.trace.job == Some(JStr("job_456"))
      && r.trace.request.Some? && r.trace.request.value.inputText == Truncate(script, BotApi.ScriptLimit)
      && (pendingQueries < |BotSchedule| ==>
            r.outcome == Delivered && r.trace.statusQueries == pendingQueries + 1
            && r.trace.fetchedFrom == Some(JStr("https://cdn/x.mp4")))
      && (pendingQueries >= |BotSchedule| ==> r.outcome == TooSlow && r.trace.statusQueries == |BotSchedule|)
  {
    var w := ExampleWorld(pendingQueries);
    assert Voices.PickRuVoice(w.defaultVoice, w.locales, w.voices) == Ok(JStr("voice_1"));
    ExampleUpload();
    ExampleCreate();
    ExamplePoll(BotSchedule, pendingQueries);
  }

  lemma ExampleUpload()
    ensures BotApi.UploadTalkingPhoto(JsonReply(JObj(map["talking_photo_id" := JStr("tp_123")]))) == Ok(JStr("tp_123"))
  {
    assert Field(JObj(map["talking_photo_id" := JStr("tp_123")]), "talking_photo_id") == JStr("tp_123");
  }

  lemma ExampleCreate()
    ensures BotApi.CreateVideo(JsonReply(JObj(map["video_id" := JStr("job_456")]))) == Ok(JStr("job_456"))
  {
    assert Field(JObj(map["video_id" := JStr("job_456")]), "video_id") == JStr("job_456");
  }

  /** Polling the example job on any schedule. */
  lemma ExamplePoll(schedule: seq<nat>, pendingQueries: nat)
    ensures var poll := Poll(schedule, StatusQueries(ExampleWorld(pendingQueries).status));
      && (pendingQueries < |schedule| ==> poll == Ready(JStr("https://cdn/x.mp4"), pendingQueries + 1))
      && (pendingQueries >= |schedule| ==> poll == TimedOut(|schedule|))
  {
    var w := ExampleWorld(pendingQueries);
    var q := StatusQueries(w.status);
    forall k: nat | k < pendingQueries ensures Pending(q(k)) {
      assert q(k) == BotApi.VideoUrl(FlatStatus("processing", JNull)) by {
        assert w.status(k) == FlatStatus("processing", JNull);
      }
      ProcessingPends();
    }
    assert q(pendingQueries) == Ok(JStr("https://cdn/x.mp4")) by {
      assert w.status(pendingQueries) == FlatStatus("completed", JStr("https://cdn/x.mp4"));
      LowerKeeps("completed");
      CompletedReports("completed", JStr("https://cdn/x.mp4"));
    }
    PollFindsFirstUrl(schedule, q, pendingQueries, JStr("https://cdn/x.mp4"));
  }

  lemma ProcessingPends()
    ensures BotApi.VideoUrl(FlatStatus("processing", JNull)) == Ok(JNull)
  {
    LowerKeeps("processing");
    BotReadsStatus(map["status" := JStr("processing"), "video_url" := JNull], "processing");
    assert "processing" != "completed" && "processing" != "failed" && "processing" != "error" by {
      assert |"processing"| == 10;
    }
  }

  /** Any status that lower-cases to "completed" reports the answer's URL. */
  lemma CompletedReports(status: string, url: Json)
    requires Lower(status) == "completed"
    ensures BotApi.VideoUrl(FlatStatus(status, url)) == Ok(url)
  {
    BotReadsFinished(FlatStatus(status, url).body.value.fields, status);
  }
}

=== FILE: polling.dfy ===
/** The bounded polling loop both drafts share: for each delay of a finite
    backoff schedule, in order, wait that long and then ask for the job's status
    once. The loop stops at the first answer that carries a truthy URL (Ready),
    at the first query that raises (Stopped), and otherwise after the last
    delay (TimedOut). Waiting itself is not modelled; only how many queries were
    made and which delays were therefore spent. */
module Polling {
  import opened Runtime

  datatype PollOutcome =
    | Ready(url: Json, queries: nat)
    | Stopped(error: Error, queries: nat)
    | TimedOut(queries: nat)

  /** The schedule of bot_0.py's text handler. */
  const BotSchedule: seq<nat> := [3, 5, 8, 13, 21, 34]

  /** The default schedule of `HeygenProcessor.wait_and_download`. */
  const ProcessorSchedule: seq<nat> := [3, 5, 8, 8, 8, 13, 21, 34, 55]

  /** A status query that neither raised nor produced a URL: polling goes on. */
  predicate Pending(q: Result<Json>) {
    q.Ok? && !Truthy(q.value)
  }

  ghost predicate PendingBetween(query: nat -> Result<Json>, lo: nat, hi: int) {
    forall k: nat | lo <= k < hi :: Pending(query(k))
  }

  /** The outcome of the loop once `done` queries have been made and `delays`
      are the schedule entries still to go; `query(k)` is what the k-th status
      query (counting from 0) yields. */
  function PollFrom(delays: seq<nat>, query: nat -> Result<Json>, done: nat): (r: PollOutcome)
    ensures done <= r.queries <= done + |delays|
    ensures r.TimedOut? ==> r.queries == done + |delays| && PendingBetween(query, done, r.queries)
    ensures r.Ready? ==>
      && done < r.queries
      && PendingBetween(query, done, r.queries - 1)
      && query(r.queries - 1) == Ok(r.url)
      && Truthy(r.url)
    ensures r.Stopped? ==>
      && done < r.queries
      && PendingBetween(query, done, r.queries - 1)
      && query(r.queries - 1) == Err(r.error)
    decreases |delays|
  {
    if delays == [] then TimedOut(done)
    else
      match query(done)
      case Err(e) => Stopped(e, done + 1)
      case Ok(url) =>
        if Truthy(url) then Ready(url, done + 1)
        else PollFrom(delays[1..], query, done + 1)
  }

  /** The whole loop over `schedule`. */
  function Poll(schedule: seq<nat>, query: nat -> Result<Json>): (r: PollOutcome)
    ensures r.queries <= |schedule|
    ensures schedule != [] ==> 1 <= r.queries
    ensures r.TimedOut? <==> PendingBetween(query, 0, |schedule|)
    ensures r.TimedOut? ==> r.queries == |schedule|
    ensures r.Ready? ==> PendingBetween(query, 0, r.queries - 1) && query(r.queries - 1) == Ok(r.url) && Truthy(r.url)
    ensures r.Stopped? ==> PendingBetween(query, 0, r.queries - 1) && query(r.queries - 1) == Err(r.error)
  {
    PollFrom(schedule, query, 0)
  }

  /** Conversely, when the first `n` queries are pending and query `n` brings a
      URL, the loop reports that URL after `n + 1` queries if the schedule
      leaves room for them, and times out otherwise. */
  lemma PollFindsFirstUrl(schedule: seq<nat>, query: nat -> Result<Json>, n: nat, url: Json)
    requires PendingBetween(query, 0, n)
    requires query(n) == Ok(url) && Truthy(url)
    ensures n < |schedule| ==> Poll(schedule, query) == Ready(url, n + 1)
    ensures n >= |schedule| ==> Poll(schedule, query) == TimedOut(|schedule|)
  {
    if n < |schedule| {
      assert !Pending(query(n));
    } else {
      assert PendingBetween(query, 0, |schedule|);
    }
  }

  /** Likewise, when the first `n` queries are pending and query `n` raises,
      the loop stops on that error after `n + 1` queries, whatever the later
      answers would have been, if the schedule leaves room for them. */
  lemma PollStopsAtFirstError(schedule: seq<nat>, query: nat -> Result<Json>, n: nat, e: Error)
    requires PendingBetween(query, 0, n)
    requires query(n) == Err(e)
    ensures n < |schedule| ==> Poll(schedule, query) == Stopped(e, n + 1)
    ensures n >= |schedule| ==> Poll(schedule, query) == TimedOut(|schedule|)
  {
    if n < |schedule| {
      assert !Pending(query(n));
    } else {
      assert PendingBetween(query, 0, |schedule|);
    }
  }

  /** Sum of the delays, in seconds. */
  function Sum(delays: seq<nat>): nat {
    if delays == [] then 0 else delays[0] + Sum(delays[1..])
  }

  /** The seconds spent waiting before the queries actually made. */
  function Waited(schedule: seq<nat>, r: PollOutcome): nat
    requires r.queries <= |schedule|
  {
    Sum(schedule[..r.queries])
  }

  /** Waiting for a prefix of the schedule never takes longer than the whole. */
  lemma {:induction false} SumPrefix(delays: seq<nat>, n: nat)
    requires n <= |delays|
    ensures Sum(delays[..n]) <= Sum(delays)
    decreases n
  {
    if n > 0 {
      assert delays[..n][1..] == delays[1..][..n - 1];
      SumPrefix(delays[1..], n - 1);
    }
  }

  /** Whatever the status answers, polling never waits longer than the sum of
      its schedule. */
  lemma WaitBounded(schedule: seq<nat>, query: nat -> Result<Json>)
    ensures Waited(schedule, Poll(schedule, query)) <= Sum(schedule)
  {
    SumPrefix(schedule, Poll(schedule, query).queries);
  }

  /** The two schedules: six entries summing to 84 seconds, nine summing to 155. */
  lemma ScheduleTotals()
    ensures |BotSchedule| == 6 && Sum(BotSchedule) == 84
    ensures |ProcessorSchedule| == 9 && Sum(ProcessorSchedule) == 155
  {
    assert BotSchedule[1..] == [5, 8, 13, 21, 34];
    assert ProcessorSchedule[1..] == [5, 8, 8, 8, 13, 21, 34, 55];
  }

  /** Queries after the one that ended polling are never made: two status
      histories that agree on the queries actually made give the same outcome. */
  lemma {:induction false} PollUsesOnlyAskedQueries(delays: seq<nat>, q1: nat -> Result<Json>, q2: nat -> Result<Json>, done: nat)
    requires forall k: nat | done <= k < PollFrom(delays, q1, done).queries :: q1(k) == q2(k)
    ensures PollFrom(delays, q2, done) == PollFrom(delays, q1, done)
    decreases |delays|
  {
    if delays != [] {
      var r1 := PollFrom(delays, q1, done);
      assert done < r1.queries;
      assert q1(done) == q2(done);
      if Pending(q1(done)) {
        assert r1 == PollFrom(delays[1..], q1, done + 1);
        PollUsesOnlyAskedQueries(delays[1..], q1, q2, done + 1);
      }
    }
  }
}

=== FILE: processor.dfy ===
/** `HeygenProcessor` of HeygenProcessor.py: the synchronous draft of the same
    pipeline. Upload and video creation check the status against 400 by hand;
    only status queries and the download call `raise_for_status()`. Fields are
    read under the answer's `data` object, with `d[key]` where the draft
    indexes and `d.get(key)` where it asks. */
module ProcessorApi {
  import opened Text
  import opened Runtime
  import opened Service
  import opened Polling

  /** The longest script the processor sends. */
  const ScriptLimit: nat := 1000

  /** `guess_mime`, given what `mimetypes.guess_type` guessed for the path:
      a JPEG or PNG guess is kept, anything else (no guess included) becomes
      JPEG, so the result is always an accepted type. */
  function GuessMime(guess: Option<string>): (r: string)
    ensures r in AcceptedImageTypes
    ensures guess.Some? && guess.value in AcceptedImageTypes ==> r == guess.value
    ensures !(guess.Some? && guess.value in AcceptedImageTypes) ==> r == Jpeg
  {
    match guess
    case Some(m) => if m == Jpeg || m == Png then m else Jpeg
    case None => Jpeg
  }

  /** The message an upload error carries: the JSON `message` when truthy,
      else the JSON `error` when truthy, else the raw body. A body that is not
      JSON, or not a JSON object, leaves the raw body. */
  function UploadMessage(text: string, body: Option<Json>): (r: Json)
    ensures Truthy(r) || r == JStr(text)
    ensures body.Some? && body.value.JObj? && Truthy(Field(body.value, "message")) ==> r == Field(body.value, "message")
    ensures body.Some? && body.value.JObj? && !Truthy(Field(body.value, "message")) && Truthy(Field(body.value, "error"))
            ==> r == Field(body.value, "error")
    ensures !(body.Some? && body.value.JObj? && (Truthy(Field(body.value, "message")) || Truthy(Field(body.value, "error"))))
            ==> r == JStr(text)
  {
    match body
    case Some(js) =>
      if js.JObj? then Or(Or(Field(js, "message"), Field(js, "error")), JStr(text)) else JStr(text)
    case None => JStr(text)
  }

  /** The nested candidate `(js.get("data") or {}).get("talking_photo_id")`, for
      a JSON object `js`. */
  function NestedPhotoId(js: Json): (r: Result<Json>)
    ensures r.Ok? <==> !Truthy(Field(js, "data")) || Field(js, "data").JObj?
    ensures r.Ok? ==> r.value == Field(Field(js, "data"), "talking_photo_id")
  {
    Get(Or(Field(js, "data"), EmptyObject), "talking_photo_id")
  }

  /** `upload_talking_photo` on the service's answer. A status of 400 or more
      always raises. Otherwise an answer whose content type is not JSON reads as
      an empty object; the id is `data.talking_photo_id` when truthy, else the
      top-level `talking_photo_id`, and an answer with neither raises, so an id
      returned is never empty. */
  function UploadTalkingPhoto(reply: Reply): (r: Result<Json>)
    ensures reply.Response? && reply.code >= 400 ==>
      r == Err(UploadFailed(reply.code, UploadMessage(reply.text, reply.body)))
    ensures reply.Response? && reply.code < 400 && !IsPrefix("application/json", reply.contentType) ==>
      r == Err(NoTalkingPhotoId)
    ensures r.Ok? ==> Truthy(r.value) && r.value != JStr([])
    ensures r.Ok? <==> reply.Response? && reply.code < 400 && IsPrefix("application/json", reply.contentType)
                       && reply.body.Some? && reply.body.value.JObj?
                       && var js := reply.body.value;
                          && (!Truthy(Field(js, "data")) || Field(js, "data").JObj?)
                          && (Truthy(Field(Field(js, "data"), "talking_photo_id")) || Truthy(Field(js, "talking_photo_id")))
    ensures r.Ok? ==> var js := reply.body.value;
      r.value == if Truthy(Field(Field(js, "data"), "talking_photo_id"))
                 then Field(Field(js, "data"), "talking_photo_id")
                 else Field(js, "talking_photo_id")
  {
    match reply
    case NoResponse => Err(Transport)
    case Response(code, contentType, text, body) =>
      if code >= 400 then Err(UploadFailed(code, UploadMessage(text, body)))
      else
        var js :- if IsPrefix("application/json", contentType) then Decoded(reply) else Ok(EmptyObject);
        var nested :- if js.JObj? then NestedPhotoId(js) else Ok(JNull);
        var id := if Truthy(nested) then nested else Field(js, "talking_photo_id");
        if !Truthy(id) then Err(NoTalkingPhotoId) else Ok(id)
  }

  /** The request `create_video` sends: the script is cut to its first 1000
      characters; speed 1, scale 1. */
  function CreateRequest(talkingPhotoId: Json, script: string, voiceId: string): (r: VideoRequest)
    ensures IsPrefix(r.inputText, script)
    ensures |r.inputText| == if |script| <= ScriptLimit then |script| else ScriptLimit
    ensures |script| <= ScriptLimit ==> r.inputText == script
    ensures r.talkingPhotoId == talkingPhotoId && r.voiceId == JStr(voiceId)
  {
    Request(talkingPhotoId, JStr(voiceId), script, ScriptLimit, 10, 10)
  }

  /** `create_video` on the service's answer: a status of 400 or more raises
      with the raw body; otherwise the job id is `data.video_id`, where a missing
      key or a non-object raises and an empty id raises. */
  function CreateVideo(reply: Reply): (r: Result<Json>)
    ensures reply.Response? && reply.code >= 400 ==> r == Err(GenerateFailed(reply.code, reply.text))
    ensures r.Ok? <==> reply.Response? && reply.code < 400 && reply.body.Some?
                       && var data := Field(reply.body.value, "data");
                          data.JObj? && "video_id" in data.fields && Truthy(data.fields["video_id"])
    ensures r.Ok? ==> Truthy(r.value)
    ensures r.Ok? ==> var data := Field(reply.body.value, "data");
      data.JObj? && "video_id" in data.fields && r.value == data.fields["video_id"]
  {
    match reply
    case NoResponse => Err(Transport)
    case Response(code, _, text, _) =>
      if code >= 400 then Err(GenerateFailed(code, text))
      else
        var parsed :- Decoded(reply);
        var data :- Index(Or(parsed, EmptyObject), "data");
        var id :- Index(data, "video_id");
        if !Truthy(id) then Err(NoVideoId) else Ok(id)
  }

  /** `get_video_url`: `data.status` compared exactly, without lower-casing.
      "completed" gives `data.video_url`, which must be present; "failed" and
      "error" raise; any other status means not ready yet. Testing a list or
      object status for membership in a set raises a TypeError. */
  function VideoUrl(reply: Reply): (r: Result<Json>)
    ensures r.Ok? ==> CheckedBody(reply).Ok?
    ensures r.Ok? && Truthy(r.value) ==>
      var data := Field(CheckedBody(reply).value, "data");
      Field(data, "status") == JStr("completed") && r.value == Field(data, "video_url")
    ensures r.Err? && r.error.RenderFailed? ==>
      && CheckedBody(reply).Ok?
      && Field(Field(CheckedBody(reply).value, "data"), "status") in {JStr("failed"), JStr("error")}
    ensures r.Err? ==> !r.error.Timeout?
    ensures CheckedBody(reply).Err? ==> r == Err(CheckedBody(reply).error)
    ensures CheckedBody(reply).Ok? &&
      !(Field(CheckedBody(reply).value, "data").JObj? && "status" in Field(CheckedBody(reply).value, "data").fields)
      ==> r.Err? && (r.error.KeyFault? || r.error.TypeFault?)
  {
    var parsed :- CheckedBody(reply);
    var j := Or(parsed, EmptyObject);
    var data :- Index(j, "data");
    var status :- Index(data, "status");
    if status == JStr("completed") then Index(data, "video_url")
    else if !Hashable(status) then Err(TypeFault)
    else if status == JStr("failed") || status == JStr("error") then Err(RenderFailed(j))
    else Ok(JNull)
  }

  /** What each status query yields, given the service's answers to them. */
  function StatusQueries(statusReplies: nat -> Reply): nat -> Result<Json> {
    (k: nat) => VideoUrl(statusReplies(k))
  }

  /** What `wait_and_download` did: how polling ended, which URL it then
      streamed (if any), and whether the whole step succeeded. */
  datatype Delivery = Delivery(poll: PollOutcome, fetchedFrom: Option<Json>, result: Result<()>)

  /** `wait_and_download`: one status query per schedule entry, in order, until
      a truthy URL comes back or a query raises; then the clip is streamed from
      that URL, which must be a string for the request to be built at all.
      `statusReplies(k)` answers the k-th status query and `download` the
      streaming request. */
  function WaitAndDownload(schedule: seq<nat>, statusReplies: nat -> Reply, download: Reply): (r: Delivery)
    ensures r.poll == Poll(schedule, StatusQueries(statusReplies))
    ensures r.poll.queries <= |schedule|
    ensures r.fetchedFrom.Some? <==> r.poll.Ready? && r.poll.url.JStr?
    ensures r.fetchedFrom.Some? ==> r.fetchedFrom.value == r.poll.url && Truthy(r.fetchedFrom.value)
    ensures r.result == Err(Timeout) <==> PendingBetween(StatusQueries(statusReplies), 0, |schedule|)
    ensures r.result.Ok? <==> r.poll.Ready? && r.poll.url.JStr? && Fetched(download).Ok?
    ensures r.poll.Ready? && !r.poll.url.JStr? ==> r.result == Err(TypeFault)
    ensures r.poll.Stopped? ==> r.result == Err(r.poll.error)
  {
    var poll := Poll(schedule, StatusQueries(statusReplies));
    match poll
    case Ready(url, _) =>
      if url.JStr? then Delivery(poll, Some(url), Fetched(download)) else Delivery(poll, None, Err(TypeFault))
    case Stopped(e, n) =>
      assert StatusQueries(statusReplies)(n - 1) == VideoUrl(statusReplies(n - 1));
      Delivery(poll, None, Err(e))
    case TimedOut(_) => Delivery(poll, None, Err(Timeout))
  }
}

=== FILE: runtime.dfy ===
/** The slice of Python's runtime that both drafts lean on when they read a
    remote service's answer: JSON values as `json` decodes them, truthiness and
    `or`, `dict.get`, `d[key]`, iteration, and the exceptions these raise when
    the answer has an unexpected shape. */
module Runtime {
  import opened Text

  /** A decoded JSON value. Numbers are integers; objects map keys to values. */
  datatype Json =
    | JNull
    | JBool(b: bool)
    | JNum(n: int)
    | JStr(s: string)
    | JArr(items: seq<Json>)
    | JObj(fields: map<string, Json>)

  /** Python's truth value of a decoded JSON value. */
  predicate Truthy(j: Json) {
    match j
    case JNull => false
    case JBool(b) => b
    case JNum(n) => n != 0
    case JStr(s) => s != []
    case JArr(items) => items != []
    case JObj(fields) => fields != map[]
  }

  /** Python's `a or b`. */
  function Or(a: Json, b: Json): Json {
    if Truthy(a) then a else b
  }

  /** Only strings, numbers, booleans and `None` can be put in a Python set. */
  predicate Hashable(j: Json) {
    !j.JArr? && !j.JObj?
  }

  const EmptyObject: Json := JObj(map[])

  datatype Option<+T> = None | Some(value: T)

  /** Why a step of the pipeline raised. */
  datatype Error =
    | Transport                                // the HTTP call got no response at all
    | HttpStatus(code: int)                    // `raise_for_status()` on a non-2xx response
    | NotJson                                  // `r.json()` on a body that is not JSON
    | TypeFault                                // AttributeError or TypeError on an unexpected shape
    | KeyFault(key: string)                    // KeyError from `d[key]`
    | UploadFailed(code: int, message: Json)   // the upload answered with status 400 or more
    | NoTalkingPhotoId                         // the upload answer holds no usable asset id
    | GenerateFailed(code: int, text: string)  // video creation answered with status 400 or more
    | NoVideoId                                // the creation answer holds no usable job id
    | RenderFailed(answer: Json)               // the service reported the job as failed
    | Timeout                                  // the polling schedule ran out

  datatype Result<+T> = Ok(value: T) | Err(error: Error) {
    predicate IsFailure() {
      Err?
    }

    function PropagateFailure<U>(): Result<U>
      requires Err?
    {
      Err(error)
    }

    function Extract(): T
      requires Ok?
    {
      value
    }
  }

  /** What one HTTP call came back with: nothing (a connection failure or a
      client-side timeout), or a status code, the `content-type` header ("" when
      absent), the raw body text and that body decoded as JSON when it is JSON. */
  datatype Reply =
    | NoResponse
    | Response(code: int, contentType: string, text: string, body: Option<Json>)

  /** `r.json()`. */
  function Decoded(reply: Reply): Result<Json> {
    match reply
    case NoResponse => Err(Transport)
    case Response(_, _, _, body) =>
      match body
      case None => Err(NotJson)
      case Some(j) => Ok(j)
  }

  /** `r.raise_for_status()` followed by `r.json()`: httpx raises on every status
      outside 200..299. */
  function CheckedBody(reply: Reply): (r: Result<Json>)
    ensures r.Ok? <==> reply.Response? && 200 <= reply.code < 300 && reply.body.Some?
    ensures r.Ok? ==> r.value == reply.body.value
  {
    match reply
    case NoResponse => Err(Transport)
    case Response(code, _, _, _) =>
      if 200 <= code < 300 then Decoded(reply) else Err(HttpStatus(code))
  }

  /** The value under `key` when `d` is a dict holding it, `None` otherwise; the
      contracts use it to name the fields an answer carries. */
  function Field(d: Json, key: string): Json {
    if d.JObj? && key in d.fields then d.fields[key] else JNull
  }

  /** `d.get(key, default)`: only a dict has `get`. */
  function GetOr(d: Json, key: string, default: Json): (r: Result<Json>)
    ensures r.Ok? <==> d.JObj?
    ensures r.Ok? ==> r.value == if key in d.fields then d.fields[key] else default
  {
    match d
    case JObj(fields) => Ok(if key in fields then fields[key] else default)
    case _ => Err(TypeFault)
  }

  /** `d.get(key)`, which is `None` for a missing key. */
  function Get(d: Json, key: string): Result<Json> {
    GetOr(d, key, JNull)
  }

  /** `d[key]`: a KeyError for a missing key, a TypeError when `d` is not a dict. */
  function Index(d: Json, key: string): (r: Result<Json>)
    ensures r.Ok? <==> d.JObj? && key in d.fields
    ensures r.Ok? ==> r.value == d.fields[key]
    ensures r.Err? ==> r.error == (if d.JObj? then KeyFault(key) else TypeFault)
  {
    match d
    case JObj(fields) => if key in fields then Ok(fields[key]) else Err(KeyFault(key))
    case _ => Err(TypeFault)
  }

  /** The elements a `for x in j` loop visits, for a loop whose body calls
      `x.get(...)`: a list's items. Iterating a dict or a string yields strings,
      which have no `get`, so a non-empty one faults at its first element; other
      scalars are not iterable at all. */
  function Elements(j: Json): (r: Result<seq<Json>>)
    ensures r.Ok? <==> j.JArr? || (!Truthy(j) && (j.JObj? || j.JStr?))
    ensures r.Ok? ==> (r.value == [] <==> !Truthy(j))
    ensures j.JArr? ==> r == Ok(j.items)
  {
    match j
    case JArr(items) => Ok(items)
    case JObj(fields) => if fields == map[] then Ok([]) else Err(TypeFault)
    case JStr(s) => if s == [] then Ok([]) else Err(TypeFault)
    case _ => Err(TypeFault)
  }

  /** `(j or "").lower()`: a missing or falsy value reads as the empty string;
      a truthy non-string has no `lower` and faults. */
  function LowerText(j: Json): (r: Result<string>)
    ensures r.Ok? <==> j.JStr? || !Truthy(j)
    ensures r.Ok? && j.JStr? ==> r.value == Lower(j.s)
    ensures r.Ok? && !Truthy(j) ==> r.value == []
  {
    match Or(j, JStr([]))
    case JStr(s) => Ok(Lower(s))
    case _ => Err(TypeFault)
  }
}

=== FILE: service.dfy ===
/** What both drafts send to and expect from the remote video-generation
    service: the image types its upload accepts, the body of a video-creation
    request, and the shape of a plain JSON answer. */
module Service {
  import opened Text
  import opened Runtime

  const Jpeg: string := "image/jpeg"
  const Png: string := "image/png"

  /** The image types the upload endpoint accepts. */
  const AcceptedImageTypes: set<string> := {Jpeg, Png}

  /** The fields of a `/v2/video/generate` request body that the pipeline
      fills in. Fractional settings are given in tenths (`speed` 1.3 is 13). */
  datatype VideoRequest = VideoRequest(
    width: nat,
    height: nat,
    talkingPhotoId: Json,
    scaleTenths: nat,
    voiceId: Json,
    inputText: string,
    speedTenths: nat,
    locale: string,
    emotion: string,
    background: string)

  /** A square 720 by 720 clip, Russian speech, an "Excited" voice and a dark
      background: the settings both drafts share. */
  function Request(talkingPhotoId: Json, voiceId: Json, script: string, limit: nat, scaleTenths: nat, speedTenths: nat): (r: VideoRequest)
    ensures r.talkingPhotoId == talkingPhotoId && r.voiceId == voiceId
    ensures IsPrefix(r.inputText, script) && |r.inputText| == if |script| <= limit then |script| else limit
    ensures r.width == r.height == 720
  {
    VideoRequest(720, 720, talkingPhotoId, scaleTenths, voiceId, Truncate(script, limit),
                 speedTenths, "ru-RU", "Excited", "#0E0E12")
  }

  /** An answer with status 200 and the given JSON body. */
  function JsonReply(body: Json): Reply {
    Response(200, "application/json", [], Some(body))
  }

  /** The result of streaming the finished clip: `raise_for_status()` is the
      only check made on the answer. */
  function Fetched(reply: Reply): (r: Result<()>)
    ensures r.Ok? <==> reply.Response? && 200 <= reply.code < 300
  {
    match reply
    case NoResponse => Err(Transport)
    case Response(code, _, _, _) => if 200 <= code < 300 then Ok(()) else Err(HttpStatus(code))
  }
}

=== FILE: text.dfy ===
/** The few operations of Python's `str` that the bot and the processor rely on:
    whitespace stripping, ASCII lower-casing, substring and affix tests, and
    left-anchored truncation. Dafny strings are sequences of Unicode scalar
    values, which is what Python indexes and slices. */
module Text {

  /** Python's `str.isspace()` for one character. */
  predicate IsSpace(c: char) {
    || c == ' '
    || ('\t' <= c <= '\r')
    || ('\U{1C}' <= c <= '\U{1F}')
    || c == '\U{85}' || c == '\U{A0}' || c == '\U{1680}'
    || ('\U{2000}' <= c <= '\U{200A}')
    || c == '\U{2028}' || c == '\U{2029}' || c == '\U{202F}' || c == '\U{205F}' || c == '\U{3000}'
  }

  ghost predicate AllSpace(s: string) {
    SpaceBetween(s, 0, |s|)
  }

  /** `str.lower()` on one character, for the ASCII letters. */
  function LowerChar(c: char): char {
    if 'A' <= c <= 'Z' then (c as int + 32) as char else c
  }

  function Lower(s: string): (r: string)
    ensures |r| == |s|
    ensures forall i | 0 <= i < |s| :: r[i] == LowerChar(s[i])
  {
    if s == [] then [] else [LowerChar(s[0])] + Lower(s[1..])
  }

  /** `s.startswith(p)`. */
  predicate IsPrefix(p: string, s: string) {
    |p| <= |s| && s[..|p|] == p
  }

  /** `s.endswith(p)`. */
  predicate IsSuffix(p: string, s: string) {
    |p| <= |s| && s[|s| - |p|..] == p
  }

  /** `sub in s`, computed by scanning from the left. */
  predicate Contains(s: string, sub: string)
    decreases |s|
  {
    IsPrefix(sub, s) || (|s| > 0 && Contains(s[1..], sub))
  }

  /** The reference meaning of `sub in s`: some window of `s` equals `sub`. */
  ghost predicate OccursAt(s: string, sub: string, i: int) {
    0 <= i && i + |sub| <= |s| && s[i..i + |sub|] == sub
  }

  /** The scan agrees with the window definition, both ways. */
  lemma {:induction false} ContainsIff(s: string, sub: string)
    ensures Contains(s, sub) <==> exists i :: OccursAt(s, sub, i)
    decreases |s|
  {
    if IsPrefix(sub, s) {
      assert OccursAt(s, sub, 0);
    } else if |s| == 0 {
    } else {
      ContainsIff(s[1..], sub);
      if Contains(s[1..], sub) {
        var i :| OccursAt(s[1..], sub, i);
        assert s[1..][i..i + |sub|] == s[i + 1..i + 1 + |sub|];
        assert OccursAt(s, sub, i + 1);
      }
      forall i | OccursAt(s, sub, i) ensures Contains(s[1..], sub) {
        assert s[1..][i - 1..i - 1 + |sub|] == s[i..i + |sub|];
        assert OccursAt(s[1..], sub, i - 1);
      }
    }
  }

  /** Lower-casing changes nothing in a text without upper-case ASCII letters. */
  lemma LowerKeeps(s: string)
    requires forall i | 0 <= i < |s| :: !('A' <= s[i] <= 'Z')
    ensures Lower(s) == s
  {
  }

  /** Every character of `s` from `lo` up to `hi` is whitespace. */
  ghost predicate SpaceBetween(s: string, lo: int, hi: int) {
    forall k | lo <= k < hi && 0 <= k < |s| :: IsSpace(s[k])
  }

  /** The first position at or after `i` that does not hold whitespace (`|s|`
      when there is none). */
  function StartOf(s: string, i: nat): (k: nat)
    requires i <= |s|
    ensures i <= k <= |s| && SpaceBetween(s, i, k)
    ensures k < |s| ==> !IsSpace(s[k])
    decreases |s| - i
  {
    if i < |s| && IsSpace(s[i]) then StartOf(s, i + 1) else i
  }

  /** The position just past the last non-whitespace character before `j` and
      not before `lo` (`lo` when there is none). */
  function EndOf(s: string, lo: nat, j: nat): (k: nat)
    requires lo <= j <= |s|
    ensures lo <= k <= j && SpaceBetween(s, k, j)
    ensures k > lo ==> !IsSpace(s[k - 1])
    decreases j - lo
  {
    if lo < j && IsSpace(s[j - 1]) then EndOf(s, lo, j - 1) else j
  }

  /** `r` sits at position `i` of `s` with only whitespace before and after it. */
  ghost predicate Framed(s: string, i: int, r: string) {
    && 0 <= i <= |s| - |r|
    && SpaceBetween(s, 0, i)
    && s[i..i + |r|] == r
    && SpaceBetween(s, i + |r|, |s|)
  }

  /** `str.strip()`: the text between the leading and trailing whitespace. It is
      empty exactly when the whole text is whitespace. */
  function Strip(s: string): (r: string)
    ensures r == [] <==> AllSpace(s)
    ensures r == [] || (!IsSpace(r[0]) && !IsSpace(r[|r| - 1]))
    ensures exists i :: Framed(s, i, r)
  {
    var i := StartOf(s, 0);
    var j := EndOf(s, i, |s|);
    assert Framed(s, i, s[i..j]);
    s[i..j]
  }

  /** Python's `s[:limit]`: the longest prefix of `s` no longer than `limit`. */
  function Truncate(s: string, limit: nat): (r: string)
    ensures IsPrefix(r, s)
    ensures |r| == if |s| <= limit then |s| else limit
    ensures |s| <= limit ==> r == s
    ensures forall p | IsPrefix(p, s) && |p| <= limit :: IsPrefix(p, r)
  {
    if |s| <= limit then s else s[..limit]
  }
}

=== FILE: voices.dfy ===
/** `pick_ru_voice` of bot_0.py: the voice used for text-to-speech. A configured
    default wins outright; otherwise the service's locale list and voice list
    are fetched, and the first voice in list order that speaks Russian is
    chosen, falling back to the first voice, and to `None` for an empty list. */
module Voices {
  import opened Text
  import opened Runtime
  import opened Service

  /** The locale value one item of the locale list contributes to the set of
      Russian locales, if any: `item.get("locale")` when its lower-cased text
      contains "ru". Reading the item faults when it is not a dict or its
      locale is a truthy non-string. */
  function RuLocaleOf(item: Json): (r: Result<Option<string>>)
    ensures r.Ok? <==> item.JObj? && (Field(item, "locale").JStr? || !Truthy(Field(item, "locale")))
    ensures r.Ok? && r.value.Some? ==>
      item.JObj? && "locale" in item.fields && item.fields["locale"] == JStr(r.value.value)
      && Contains(Lower(r.value.value), "ru")
    ensures item.JObj? && "locale" in item.fields && item.fields["locale"].JStr?
            && Contains(Lower(item.fields["locale"].s), "ru") ==>
      r == Ok(Some(item.fields["locale"].s))
  {
    var locale :- Get(item, "locale");
    var text :- LowerText(locale);
    if Contains(text, "ru") then Ok(Some(locale.s)) else Ok(None)
  }

  /** The set comprehension that builds `ru_locales`: it is built exactly when
      every item can be read, and then holds the strings the items contribute. */
  function RuLocales(items: seq<Json>): (r: Result<set<string>>)
    ensures r.Ok? <==> forall i | 0 <= i < |items| :: RuLocaleOf(items[i]).Ok?
    ensures r.Ok? ==> forall s :: s in r.value <==> exists i | 0 <= i < |items| :: RuLocaleOf(items[i]) == Ok(Some(s))
  {
    if items == [] then Ok({})
    else
      var first :- RuLocaleOf(items[0]);
      assert forall i | 1 <= i < |items| :: items[i] == items[1..][i - 1];
      var rest :- RuLocales(items[1..]);
      Ok(match first case Some(s) => {s} + rest case None => rest)
  }

  /** A locale-list entry can be read for `{l.get("locale") for l in locales}`:
      it is a dict and its locale value can go into a set. */
  predicate ReadableLocale(item: Json) {
    item.JObj? && Hashable(Field(item, "locale"))
  }

  /** The values `{l.get("locale") for l in locales}` collects from a voice's
      locale list: they are collected exactly when every entry is readable. */
  function LocaleValues(items: seq<Json>): (r: Result<seq<Json>>)
    ensures r.Ok? <==> forall i | 0 <= i < |items| :: ReadableLocale(items[i])
    ensures r.Ok? ==> |r.value| == |items|
    ensures r.Ok? ==> forall i | 0 <= i < |items| :: Get(items[i], "locale") == Ok(r.value[i])
  {
    if items == [] then Ok([])
    else
      var v :- Get(items[0], "locale");
      if !Hashable(v) then Err(TypeFault)
      else
        assert forall i | 1 <= i < |items| :: items[i] == items[1..][i - 1];
        var rest :- LocaleValues(items[1..]);
        Ok([v] + rest)
  }

  /** `locs & ru_locales` is non-empty: only strings can be in `ru_locales`. */
  predicate MeetsRu(locs: seq<Json>, ru: set<string>) {
    exists i | 0 <= i < |locs| :: locs[i].JStr? && locs[i].s in ru
  }

  /** Whether one voice counts as Russian: it claims locale support and one of
      its locales is a Russian locale, or its lower-cased language is "ru" or
      contains "russian". */
  function SpeaksRussian(v: Json, ru: set<string>): (r: Result<bool>)
    ensures !v.JObj? ==> r == Err(TypeFault)
    ensures r == Ok(true) && !Truthy(Field(v, "support_locale")) ==>
      var language := Field(v, "language");
      language.JStr? && (Contains(Lower(language.s), "russian") || Lower(language.s) == "ru")
    ensures r == Ok(false) ==>
      var language := Field(v, "language");
      !Truthy(language) || (language.JStr? && !Contains(Lower(language.s), "russian") && Lower(language.s) != "ru")
  {
    var support :- Get(v, "support_locale");
    var byLocale :-
      if Truthy(support) then
        // `v` is a dict here, so this `get` cannot fault
        var list := GetOr(v, "locales", JArr([])).value;
        var items :- Elements(list);
        var locs :- LocaleValues(items);
        Ok(MeetsRu(locs, ru))
      else Ok(false);
    if byLocale then Ok(true)
    else
      // `v` is a dict here, so `v.get("language")` is its `language` field
      var lang :- LowerText(Field(v, "language"));
      Ok(Contains(lang, "russian") || lang == "ru")
  }

  /** Voice `i` is the first one in list order that speaks Russian. */
  ghost predicate FirstRussianAt(voices: seq<Json>, ru: set<string>, i: int) {
    && 0 <= i < |voices|
    && SpeaksRussian(voices[i], ru) == Ok(true)
    && forall j | 0 <= j < i :: SpeaksRussian(voices[j], ru) == Ok(false)
  }

  /** The loop over the voice list: `Some(id)` with the first Russian voice's
      `voice_id`, `None` when no voice is Russian. */
  function FirstRussian(voices: seq<Json>, ru: set<string>): (r: Result<Option<Json>>)
    ensures r == Ok(None) <==> forall i | 0 <= i < |voices| :: SpeaksRussian(voices[i], ru) == Ok(false)
    ensures r.Ok? && r.value.Some? ==>
      exists i :: FirstRussianAt(voices, ru, i) && Get(voices[i], "voice_id") == Ok(r.value.value)
  {
    if voices == [] then Ok(None)
    else
      var russian :- SpeaksRussian(voices[0], ru);
      if russian then
        // a voice that was judged Russian is a dict, so this `get` cannot fault
        var id := Get(voices[0], "voice_id").value;
        assert FirstRussianAt(voices, ru, 0);
        Ok(Some(id))
      else
        SkipNonRussian(voices, ru);
        FirstRussian(voices[1..], ru)
  }

  /** Past a voice that is not Russian, the first Russian voice of the rest is
      the first Russian voice of the whole list. */
  lemma SkipNonRussian(voices: seq<Json>, ru: set<string>)
    requires voices != [] && SpeaksRussian(voices[0], ru) == Ok(false)
    ensures forall i | 1 <= i < |voices| :: voices[i] == voices[1..][i - 1]
    ensures forall i :: FirstRussianAt(voices[1..], ru, i) ==> FirstRussianAt(voices, ru, i + 1)
  {
  }

  /** `pick_ru_voice`: `defaultId` is the configured default ("" when unset);
      `locales` and `voices` answer the two list requests, which are made only
      when there is no default. The result is the chosen `voice_id` value, or
      `JNull` for Python's `None`. */
  function PickRuVoice(defaultId: string, locales: Reply, voices: Reply): (r: Result<Json>)
    ensures defaultId != [] ==> r == Ok(JStr(defaultId))
    ensures defaultId == [] && r.Ok? ==> CheckedBody(locales).Ok? && CheckedBody(voices).Ok?
  {
    if defaultId != [] then Ok(JStr(defaultId))
    else
      var localeBody :- CheckedBody(locales);
      var localeItems :- Elements(localeBody);
      var ru :- RuLocales(localeItems);
      var voiceBody :- CheckedBody(voices);
      var voiceItems :- Elements(voiceBody);
      var found :- FirstRussian(voiceItems, ru);
      match found
      case Some(id) => Ok(id)
      case None => if voiceItems != [] then Get(voiceItems[0], "voice_id") else Ok(JNull)
  }

  /** With no default and well-formed lists, the first Russian voice in list
      order is chosen. */
  lemma PickFirstRussian(locales: seq<Json>, voices: seq<Json>, ru: set<string>, i: int)
    requires RuLocales(locales) == Ok(ru)
    requires FirstRussianAt(voices, ru, i)
    ensures PickRuVoice([], JsonReply(JArr(locales)), JsonReply(JArr(voices))) == Get(voices[i], "voice_id")
  {
    FirstRussianFinds(voices, ru, i);
  }

  /** The loop returns the `voice_id` of the first Russian voice, whatever
      follows it in the list. */
  lemma {:induction false} FirstRussianFinds(voices: seq<Json>, ru: set<string>, i: int)
    requires FirstRussianAt(voices, ru, i)
    ensures Get(voices[i], "voice_id").Ok?
    ensures FirstRussian(voices, ru) == Ok(Some(Get(voices[i], "voice_id").value))
    decreases |voices|
  {
    if i > 0 {
      assert SpeaksRussian(voices[0], ru) == Ok(false);
      SkipNonRussian(voices, ru);
      assert FirstRussianAt(voices[1..], ru, i - 1);
      FirstRussianFinds(voices[1..], ru, i - 1);
    }
  }

  /** With no default and no Russian voice, the first voice's `voice_id` is
      chosen, and `None` when the list is empty. */
  lemma PickFallback(locales: seq<Json>, voices: seq<Json>, ru: set<string>)
    requires RuLocales(locales) == Ok(ru)
    requires forall i | 0 <= i < |voices| :: SpeaksRussian(voices[i], ru) == Ok(false)
    ensures voices == [] ==> PickRuVoice([], JsonReply(JArr(locales)), JsonReply(JArr(voices))) == Ok(JNull)
    ensures voices != [] ==> PickRuVoice([], JsonReply(JArr(locales)), JsonReply(JArr(voices))) == Get(voices[0], "voice_id")
  {
    assert Elements(JArr(locales)) == Ok(locales) && Elements(JArr(voices)) == Ok(voices);
    assert FirstRussian(voices, ru) == Ok(None);
  }

  /** The set `ru_locales` holds exactly the `locale` strings of the locale
      items whose lower-cased text contains "ru". */
  lemma RussianLocaleSet(items: seq<Json>, ru: set<string>)
    requires RuLocales(items) == Ok(ru)
    ensures forall s :: s in ru <==> exists i | 0 <= i < |items| ::
      items[i].JObj? && "locale" in items[i].fields && items[i].fields["locale"] == JStr(s)
      && Contains(Lower(s), "ru")
  {
    forall s ensures s in ru <==> exists i | 0 <= i < |items| ::
      items[i].JObj? && "locale" in items[i].fields && items[i].fields["locale"] == JStr(s)
      && Contains(Lower(s), "ru")
    {
      if s in ru {
        var i :| 0 <= i < |items| && RuLocaleOf(items[i]) == Ok(Some(s));
        assert items[i].fields["locale"] == JStr(s);
      }
      if exists i | 0 <= i < |items| ::
          items[i].JObj? && "locale" in items[i].fields && items[i].fields["locale"] == JStr(s)
          && Contains(Lower(s), "ru") {
        var i :| 0 <= i < |items| &&
          items[i].JObj? && "locale" in items[i].fields && items[i].fields["locale"] == JStr(s)
          && Contains(Lower(s), "ru");
        assert RuLocaleOf(items[i]) == Ok(Some(s));
      }
    }
  }

  /** The lower-cased language a voice reports: `(v.get("language") or "").lower()`
      for a string or falsy `language`. */
  function LanguageOf(v: Json): string {
    var language := Field(v, "language");
    if language.JStr? then Lower(language.s) else []
  }

  /** Both ways of speaking Russian, on any voice dict whose `language` is a
      string or falsy (missing included) and, when it claims locale support,
      whose `locales` (an empty list when missing) are readable entries: a
      supported locale that is a Russian locale, or a Russian language name.
      Any other keys, such as `voice_id`, play no part. */
  lemma SpeaksRussianIff(fields: map<string, Json>, items: seq<Json>, ru: set<string>)
    requires Field(JObj(fields), "language").JStr? || !Truthy(Field(JObj(fields), "language"))
    requires Truthy(Field(JObj(fields), "support_locale")) ==>
      GetOr(JObj(fields), "locales", JArr([])) == Ok(JArr(items))
      && forall i | 0 <= i < |items| :: ReadableLocale(items[i])
    ensures SpeaksRussian(JObj(fields), ru) == Ok(
        (Truthy(Field(JObj(fields), "support_locale"))
         && exists i | 0 <= i < |items| :: Field(items[i], "locale").JStr? && Field(items[i], "locale").s in ru)
        || LanguageOf(JObj(fields)) == "ru"
        || exists k :: OccursAt(LanguageOf(JObj(fields)), "russian", k))
  {
    var v := JObj(fields);
    var lang := LanguageOf(v);
    assert LowerText(Field(v, "language")) == Ok(lang);
    ContainsIff(lang, "russian");
    if Truthy(Field(v, "support_locale")) {
      assert Elements(JArr(items)) == Ok(items);
      RecordsMeetRu(items, ru);
    }
  }

  /** A readable locale list meets the Russian locales exactly when one of its
      entries has a Russian locale string. */
  lemma RecordsMeetRu(items: seq<Json>, ru: set<string>)
    requires forall i | 0 <= i < |items| :: ReadableLocale(items[i])
    ensures var values := LocaleValues(items);
      && values.Ok?
      && (MeetsRu(values.value, ru) <==>
          exists i | 0 <= i < |items| :: Field(items[i], "locale").JStr? && Field(items[i], "locale").s in ru)
  {
    var locs := LocaleValues(items).value;
    forall i | 0 <= i < |locs| ensures locs[i] == Field(items[i], "locale") {
      assert Get(items[i], "locale") == Ok(locs[i]);
    }
  }
}
